=== FILE: README.md ===
# Hydrogen `link` workflow in Dafny

This project models `linkStorefront`, the workflow behind the Hydrogen CLI's
`hydrogen link` command. The command binds a local project to one of the
shop's Hydrogen storefronts. The workflow goes through these steps in order:

1. It resolves the shop (foreign code, outside the trace), then reads the project config at `--path`, or at the working directory when no path is given.
2. If a storefront is already linked and `--force` is not set, it asks before replacing the link.
3. It opens an admin session and fetches the shop's storefronts. It stops with a notice when there are none.
4. It picks a storefront. With `--storefront` it takes the first exact, case-sensitive title match and warns when there is none. Otherwise it shows a select prompt and resolves the chosen id.
5. It writes the choice to the config once, then prints a success line, the admin URL and the site URL.

The workflow is one pure function, `Link.LinkStorefront`. Its inputs are:
- the linked record read from the config;
- the flags;
- the resolved shop and the working directory;
- a `Script` of answers from the outside world: the confirmation answer, the fetched storefront list and the select prompt's answer.

It returns a `Run`: an `Outcome` (`Declined`, `NoStorefronts`, `NoMatch`,
`Unresolved` or `Linked(storefront)`) and the trace of effects, in order.

Each effect records a call and the values its text is built from. The calls
are the config read and write, the prompts, the session, the fetch, the
notice, the warning and the output lines. `Link.Render` gives the text of
each prompt message, the warning body and the three output lines. For the
admin URL line it gives only the fixed opening.
`Link.Headline` gives the warning's headline.

Files:
- `options.dfy`: `Option`, JavaScript's possibly-`undefined` value.
- `storefronts.dfy`: the `Storefront` record and `find` over the fetched list (`FindIndex`, `Find`).
- `effects.dfy`: effects, select-prompt choices, and counting effects by kind.
- `link.dfy`: flags, flag truthiness, `path ?? cwd`, the gate, choice labels, the workflow, rendering.
- `link_properties.dfy`: lemmas for each exit path and for every run.
- `link_scenarios.dfy`: concrete runs.

## Model

| member | source | states |
|---|---|---|
| Storefronts.FindIndex | packages/cli/src/commands/hydrogen/link.ts:81-83 | `find` stops at the first index whose storefront matches the callback; it finds nothing exactly when no storefront matches |
| Storefronts.Find | packages/cli/src/commands/hydrogen/link.ts:107-109 | the found storefront matches and sits at the first matching index; nothing is found exactly when no storefront matches |
| Storefronts.FindReturnsFirstMatch | packages/cli/src/commands/hydrogen/link.ts:81-83 | whenever index i is the first match, `find` returns exactly the storefront at i |
| Link.ProjectPath | packages/cli/src/commands/hydrogen/link.ts:54 | `path ?? process.cwd()`: a given path wins, even the empty string; the working directory is used only when no path is given |
| Link.ChoiceLabel | packages/cli/src/commands/hydrogen/link.ts:95-97 | a label starts with title, space, production URL; it is that text plus " (Current)" exactly when the storefront's id equals the linked record's id, and is that text alone otherwise |
| Link.Choices | packages/cli/src/commands/hydrogen/link.ts:94-99 | `map` gives exactly one choice per fetched storefront: the list keeps the fetched length; the content and order at each index are stated by `Link.ChoiceAt` |
| Link.ChoiceAt | packages/cli/src/commands/hydrogen/link.ts:94-99 | choice i is labelled after the i-th fetched storefront and returns its id, so the choices keep the fetched order, one per storefront |
| Link.Render | packages/cli/src/commands/hydrogen/link.ts:58-125 | a prompt message, warning body or output line (success, admin URL, site URL) is non-empty, and every other effect shows nothing; the confirmation opens with the linked title; the warning body names the requested title and then the shop; the select message is fixed; the admin URL line opens with "Admin URL: "; the success and site URL lines are their prefix followed by exactly the title or the URL. The text is from lines 58, 88, 102, 118, 120 and 125 |
| Link.Headline | packages/cli/src/commands/hydrogen/link.ts:86-87 | only the no-match warning has a headline, "Failed to link to storefront" |
| Link.LinkStorefront | packages/cli/src/commands/hydrogen/link.ts:47-126 | a linked storefront is one of the fetched ones; its title equals a non-empty `--storefront` flag, or else its id equals the select prompt's answer |
| LinkProperties.OutcomeByPath | packages/cli/src/commands/hydrogen/link.ts:56-114 | which outcome each combination of gate answer, fetched list and flag leads to, including that a link is the first title match or the first id match |
| LinkProperties.ConfigReadOnceFirst | packages/cli/src/commands/hydrogen/link.ts:54 | the first effect in the trace of every run is the `getConfig` read at `path ?? cwd`, and `getConfig` is called only once; shop resolution at line 53 comes earlier but is not in the trace |
| LinkProperties.GateSkippedWhenUnlinkedOrForced | packages/cli/src/commands/hydrogen/link.ts:56-66 | with nothing linked, or with `force`, no confirmation is shown, the run is never declined, and the session and fetch happen once each |
| LinkProperties.GateAsksWhenLinkedAndNotForced | packages/cli/src/commands/hydrogen/link.ts:56-59 | with a linked storefront and no `force`, exactly one confirmation is shown, right after the config read, and it carries the linked title |
| LinkProperties.ConfirmationNamesLinkedTitle | packages/cli/src/commands/hydrogen/link.ts:57-59 | the confirmation text begins with the currently linked storefront's title |
| LinkProperties.DeclineStopsBeforeSession | packages/cli/src/commands/hydrogen/link.ts:56-71 | a run is declined exactly when something is linked, `force` is off and the answer is no; a declined run gets no session, fetch, write or success line; every other run gets one session and one fetch |
| LinkProperties.EmptyListNotifiesAndStops | packages/cli/src/commands/hydrogen/link.ts:73-76 | the run stops for "no storefronts" exactly when it is past the gate and the list is empty; the notice is then the last effect, shown once, with no select prompt, warning, write or success line; other runs never show it |
| LinkProperties.NamedSelectionWarnsOnNoMatch | packages/cli/src/commands/hydrogen/link.ts:80-92 | past the gate, with a non-empty fetched list and a non-empty title flag, there is no select prompt; the run links, or warns once with the title and shop, and the warning ends the run exactly when no title matches; nothing is then written |
| LinkProperties.NamedSelectionPicksFirstTitle | packages/cli/src/commands/hydrogen/link.ts:80-84 | past the gate, with a non-empty title flag, the run links the first fetched storefront whose title is strictly equal to the flag |
| LinkProperties.InteractiveSelectionPrompts | packages/cli/src/commands/hydrogen/link.ts:93-105 | past the gate, with a non-empty fetched list and an absent or empty title flag, the select prompt is shown once, carrying the choices, and no warning is possible |
| LinkProperties.InteractiveSelectionPicksFirstId | packages/cli/src/commands/hydrogen/link.ts:107-110 | past the gate, with an absent or empty title flag, the select prompt's answer links the first fetched storefront whose id equals it |
| LinkProperties.UnresolvedAnswerStopsSilently | packages/cli/src/commands/hydrogen/link.ts:107-114 | past the gate, with a non-empty fetched list and an absent or empty title flag, the run ends unresolved exactly when the answer matches no fetched id; the prompt is then the last effect, with no write, success line or warning |
| LinkProperties.ChoicesResolve | packages/cli/src/commands/hydrogen/link.ts:94-109 | every offered choice's value resolves to a fetched storefront with that id, and to the very storefront it was built from when ids are unique |
| LinkProperties.OfferedAnswerLinks | packages/cli/src/commands/hydrogen/link.ts:94-114 | past the gate, with an absent or empty title flag, if the select prompt returns one of the values it offered, the run links a storefront with that id, so the unresolved exit cannot be taken |
| LinkProperties.CurrentMarkerAtMostOnce | packages/cli/src/commands/hydrogen/link.ts:95-97 | with unique ids at most one choice carries the " (Current)" marker |
| LinkProperties.WriteOnlyWhenLinked | packages/cli/src/commands/hydrogen/link.ts:112-116 | the config is written at most once, and exactly when the run links |
| LinkProperties.NoReportUnlessLinked | packages/cli/src/commands/hydrogen/link.ts:112-125 | a run that does not link prints no success line, admin URL or site URL: no effect in its trace is a report line |
| LinkProperties.LinkedRunCommits | packages/cli/src/commands/hydrogen/link.ts:116-125 | a linking run writes the selected storefront to `path ?? cwd` and prints success once with its title and its admin URL line, and ends with its site URL; the order of the last four lines is `LinkedTraceEndsWithCommit` |
| LinkProperties.LinkedTraceEndsWithCommit | packages/cli/src/commands/hydrogen/link.ts:116-125 | a linking run ends with the write, the success line, the admin URL line and the site URL line for the linked storefront, in that order |
| LinkProperties.NoMatchRunNamesTitleAndShop | packages/cli/src/commands/hydrogen/link.ts:85-91 | a run that ends without a title match ends with the warning: headline "Failed to link to storefront", body naming the requested title and then the shop |
| LinkProperties.LinkedRunPrintsTitleAndUrl | packages/cli/src/commands/hydrogen/link.ts:118-125 | in a linking run, the success text is "Linked to " plus the title, and the last text is "Site URL: " plus the production URL |
| LinkProperties.WriteIsLastMutation | packages/cli/src/commands/hydrogen/link.ts:116-125 | only report lines follow the config write, so every prompt, request and warning comes before it |
| LinkScenarios.CaseSensitiveTitleMatch | packages/cli/src/commands/hydrogen/link.ts:81-83 | given storefronts titled "Prod" and "prod", asking for "prod" links the second |
| LinkScenarios.LinkByTitleFromScratch | packages/cli/src/commands/hydrogen/link.ts:80-118 | with one storefront "Prod", nothing linked and `--storefront Prod`, that storefront is written to the working directory once and success is reported once |
| LinkScenarios.NoStorefrontsFromScratch | packages/cli/src/commands/hydrogen/link.ts:73-76 | a shop with no storefronts gets the notice once and no write or success line |
| LinkScenarios.DeclineKeepsLink | packages/cli/src/commands/hydrogen/link.ts:56-63 | something linked, no force, the answer is no: nothing is fetched and nothing is written |
| LinkScenarios.EmptyTitleFlagPrompts | packages/cli/src/commands/hydrogen/link.ts:80-105 | `--storefront ""` with `--force`: no confirmation, one select prompt, no warning |

## Left out

- Shop resolution (`getHydrogenShop`, and with it the `--shop` flag) is foreign code. It runs first (`link.ts:53`), before the config read, and it may prompt. It has no effect in the trace, and the resolved shop is an input. "Once" and "first" in the trace lemmas refer to modelled effects only.
- `getAdminSession`, `adminRequest` and `missingStorefronts` are foreign calls. They appear as trace effects, and the fetched list is an input. Their authentication and network failures are not modelled.
- `getConfig` and `setStorefront` are file I/O. The read's result is the `linked` input and the write is one `ConfigWritten` effect. Whether `setStorefront` replaces or merges the stored record is not shown, so the model only says it is called with the selected storefront.
- Exceptions are not modelled. The model covers runs in which every foreign call returns: `getHydrogenShop`, `getConfig`, the two prompts (for example, when the user cancels), `getAdminSession`, `adminRequest`, `setStorefront` and the output calls. When `setStorefront` throws, the run stops after attempting the write and shows no success line. `WriteOnlyWhenLinked` and `LinkedRunCommits` do not cover that run.
- The prompts and output calls are foreign. The confirmation and select answers are scripted inputs, and each prompt or line is a trace effect.
- `parseGid` and `hydrogenStorefrontUrl` are not shown. The admin URL line is an `AdminUrlInfo(shop, id)` effect.
- Link.Render: renders the admin URL line (`link.ts:119-124`) only as its opening "Admin URL: ". The URL after it comes from `hydrogenStorefrontUrl`, which is foreign, so the contract states only that the line opens with "Admin URL: ".
- The oclif `Command` class and flag parsing (`link.ts:21-38`) are framework plumbing. Flags arrive already parsed as `Flags`.
- The GraphQL query texts in `lib/graphql/admin/link-storefront.ts` and `lib/graphql/admin/list-storefronts.ts` have no behaviour. The first only supplies the `Storefront` shape: id, title, production URL.
- The storefront-app route modules under `templates/skeleton/app/routes/` are framework loaders, actions and rendering. They are not part of this model.
- Async sequencing is modelled as the order of effects in the trace. Each `await` completes before the next step, as in the source.

## Notes on the code

- `setStorefront` (`link.ts:116`) gets the fetched storefront object, which holds only id, title and production URL. Whether it merges that into the stored record or replaces it is not modelled.
- The unresolved-selection exit (`link.ts:112-114`) prints nothing. See `UnresolvedAnswerStopsSilently`.
- The select prompt's `defaultValue: 'true'` (`link.ts:104`) is not a storefront id. Defaults are not modelled.

=== FILE: effects.dfy ===
/**
 * The observable effects of one run of the link workflow, in the order they
 * happen: config reads and writes, prompts, admin API calls and output lines.
 */
module Effects {
  import opened Storefronts

  /** One entry of the interactive select prompt: its label `text` and the `value` the prompt returns. */
  datatype Choice = Choice(text: string, value: string)

  /**
   * An effect records the call made and the values the call's text is built
   * from; the text itself is given by `Link.Render`.
   */
  datatype Effect =
    | ConfigRead(path: string)                    // getConfig(path)
    | ConfirmPrompt(linkedTitle: string)          // renderConfirmationPrompt
    | SessionObtained(shop: string)               // getAdminSession(shop)
    | StorefrontsFetched                          // adminRequest(LinkStorefrontQuery, session)
    | MissingStorefrontsNotice                    // missingStorefronts(session)
    | NoMatchWarning(title: string, shop: string) // renderWarning
    | SelectPrompt(choices: seq<Choice>)          // renderSelectPrompt
    | ConfigWritten(path: string, storefront: Storefront)  // setStorefront(path, storefront)
    | LinkedSuccess(title: string)                // outputSuccess
    | AdminUrlInfo(shop: string, storefrontId: string)
      // outputInfo of the admin URL that the uninterpreted
      // hydrogenStorefrontUrl(session, parseGid(storefrontId)) builds
    | SiteUrlInfo(productionUrl: string)          // outputInfo of the site URL

  /** Effect kinds, for counting how often each kind of effect occurs in a trace. */
  datatype Kind = Read | Confirm | Session | Fetch | Missing | Warn | Select | Write | Success | AdminUrl | SiteUrl

  function KindOf(e: Effect): Kind {
    match e
    case ConfigRead(_) => Read
    case ConfirmPrompt(_) => Confirm
    case SessionObtained(_) => Session
    case StorefrontsFetched => Fetch
    case MissingStorefrontsNotice => Missing
    case NoMatchWarning(_, _) => Warn
    case SelectPrompt(_) => Select
    case ConfigWritten(_, _) => Write
    case LinkedSuccess(_) => Success
    case AdminUrlInfo(_, _) => AdminUrl
    case SiteUrlInfo(_) => SiteUrl
  }

  /** Effects that only print after the fact: they neither ask the user nor touch state. */
  predicate IsReport(e: Effect) {
    e.LinkedSuccess? || e.AdminUrlInfo? || e.SiteUrlInfo?
  }

  /** How many effects of kind `k` the trace holds. */
  function Count(t: seq<Effect>, k: Kind): (n: nat)
    ensures n <= |t|
  {
    if |t| == 0 then 0
    else (if KindOf(t[0]) == k then 1 else 0) + Count(t[1..], k)
  }

  /** Counting distributes over concatenation of traces. */
  lemma {:induction false} CountAppend(a: seq<Effect>, b: seq<Effect>, k: Kind)
    ensures Count(a + b, k) == Count(a, k) + Count(b, k)
    decreases |a|
  {
    if |a| == 0 {
      assert a + b == b;
    } else {
      assert (a + b)[1..] == a[1..] + b;
      CountAppend(a[1..], b, k);
    }
  }

  /** A kind is absent from a trace exactly when its count is zero. */
  lemma {:induction false} CountZeroIffAbsent(t: seq<Effect>, k: Kind)
    ensures Count(t, k) == 0 <==> forall i :: 0 <= i < |t| ==> KindOf(t[i]) != k
    decreases |t|
  {
    if |t| > 0 {
      CountZeroIffAbsent(t[1..], k);
      assert forall i :: 1 <= i < |t| ==> t[1..][i - 1] == t[i];
    }
  }

  /** Report lines are exactly the effects of the three output kinds. */
  lemma ReportKinds(e: Effect)
    ensures IsReport(e) <==> KindOf(e) == Success || KindOf(e) == AdminUrl || KindOf(e) == SiteUrl
  {
  }

  /** A trace with no success, admin URL or site URL effect holds no report line at all. */
  lemma NoReportWithoutReportKinds(t: seq<Effect>)
    requires Count(t, Success) == 0 && Count(t, AdminUrl) == 0 && Count(t, SiteUrl) == 0
    ensures forall i :: 0 <= i < |t| ==> !IsReport(t[i])
  {
    CountZeroIffAbsent(t, Success);
    CountZeroIffAbsent(t, AdminUrl);
    CountZeroIffAbsent(t, SiteUrl);
    forall i | 0 <= i < |t|
      ensures !IsReport(t[i])
    {
      ReportKinds(t[i]);
    }
  }
}

=== FILE: link.dfy ===
/**
 * The `hydrogen link` workflow: confirm overwriting an existing link, fetch the
 * shop's storefronts, pick one by title or interactively, then write it to the
 * project config and report.
 *
 * Every collaborator the workflow calls (shop resolution, the admin session,
 * the GraphQL request, the config file, the terminal prompts) is replaced by an
 * input value or by an entry in the returned effect trace.
 */
module Link {
  import opened Options
  import opened Storefronts
  import opened Effects

  /** The command's flags; `shop` is consumed by shop resolution, whose result is an input. */
  datatype Flags = Flags(force: Option<bool>, path: Option<string>, storefront: Option<string>)

  /** What the outside world answers during one run. */
  datatype Script = Script(
    confirm: bool,                  // answer to the overwrite confirmation
    fetched: seq<Storefront>,       // `hydrogenStorefronts` as returned by the admin API
    selectedId: string              // value returned by the select prompt
  )

  /** How a run ended. Only `Linked` changes the project config. */
  datatype Outcome =
    | Declined          // the user refused to replace the current link
    | NoStorefronts     // the shop has no storefronts
    | NoMatch           // no storefront has the requested title
    | Unresolved        // the chosen id matched no fetched storefront
    | Linked(storefront: Storefront)

  datatype Run = Run(outcome: Outcome, trace: seq<Effect>)

  /** JavaScript truthiness of the optional boolean `force` flag. */
  predicate Forced(force: Option<bool>) {
    force == Some(true)
  }

  /** JavaScript truthiness of the optional `storefront` flag: absent and "" are both falsy. */
  predicate NamedTarget(storefront: Option<string>) {
    storefront.Some? && storefront.value != ""
  }

  /** `path ?? process.cwd()`: an explicit path wins even when it is the empty string. */
  function ProjectPath(path: Option<string>, cwd: string): (r: string)
    ensures path.Some? ==> r == path.value
    ensures path.None? ==> r == cwd
  {
    path.GetOr(cwd)
  }

  /** The gate asks only when something is already linked and the run is not forced. */
  predicate NeedsConfirmation(linked: Option<Storefront>, force: Option<bool>) {
    linked.Some? && !Forced(force)
  }

  /** The run gets past the gate: nothing to confirm, or the user agreed to replace the link. */
  predicate Proceeds(linked: Option<Storefront>, force: Option<bool>, confirm: bool) {
    !NeedsConfirmation(linked, force) || confirm
  }

  const CurrentMarker: string := " (Current)"

  /** The part of a choice label every storefront gets: title, a space, production URL. */
  function BaseLabel(s: Storefront): string {
    s.title + " " + s.productionUrl
  }

  /** `storefront.id === configStorefront?.id`: false whenever nothing is linked. */
  predicate IsCurrent(s: Storefront, linked: Option<Storefront>) {
    linked.Some? && linked.value.id == s.id
  }

  /** The label shown for `s` in the select prompt. */
  function ChoiceLabel(s: Storefront, linked: Option<Storefront>): (r: string)
    ensures |BaseLabel(s)| <= |r| && r[..|BaseLabel(s)|] == BaseLabel(s)
    ensures r == BaseLabel(s) + CurrentMarker <==> IsCurrent(s, linked)
    ensures !IsCurrent(s, linked) ==> |r| == |BaseLabel(s)|
  {
    BaseLabel(s) + if IsCurrent(s, linked) then CurrentMarker else ""
  }

  /** The select prompt's choices: one per fetched storefront (see `ChoiceAt`). */
  function Choices(fetched: seq<Storefront>, linked: Option<Storefront>): (r: seq<Choice>)
    ensures |r| == |fetched|
  {
    if |fetched| == 0 then []
    else [Choice(ChoiceLabel(fetched[0], linked), fetched[0].id)] + Choices(fetched[1..], linked)
  }

  /**
   * Choices keep the fetched order: the i-th choice is labelled after the
   * i-th storefront and returns that storefront's id.
   */
  lemma {:induction false} ChoiceAt(fetched: seq<Storefront>, linked: Option<Storefront>, i: int)
    requires 0 <= i < |fetched|
    ensures Choices(fetched, linked)[i] == Choice(ChoiceLabel(fetched[i], linked), fetched[i].id)
    decreases i
  {
    if i > 0 {
      ChoiceAt(fetched[1..], linked, i - 1);
    }
  }

  /** The config read, then the confirmation prompt when the gate has to ask. */
  function OpeningTrace(linked: Option<Storefront>, force: Option<bool>, path: string): seq<Effect> {
    [ConfigRead(path)]
      + if NeedsConfirmation(linked, force) then [ConfirmPrompt(linked.value.title)] else []
  }

  /** Past the gate: open an admin session for the shop and request its storefronts. */
  function FetchTrace(shop: string): seq<Effect> {
    [SessionObtained(shop), StorefrontsFetched]
  }

  /** Persist the selection, then report it: the write comes first, outputs after. */
  function CommitTrace(path: string, s: Storefront, shop: string): seq<Effect> {
    [ConfigWritten(path, s), LinkedSuccess(s.title), AdminUrlInfo(shop, s.id), SiteUrlInfo(s.productionUrl)]
  }

  /**
   * One run of `linkStorefront`. `linked` is the storefront record read from the
   * project config, `shop` the shop that shop resolution settled on, `cwd` the
   * process working directory.
   */
  function LinkStorefront(linked: Option<Storefront>, flags: Flags, shop: string, cwd: string, script: Script): (r: Run)
    ensures r.outcome.Linked? ==> r.outcome.storefront in script.fetched
    ensures r.outcome.Linked? && NamedTarget(flags.storefront) ==> r.outcome.storefront.title == flags.storefront.value
    ensures r.outcome.Linked? && !NamedTarget(flags.storefront) ==> r.outcome.storefront.id == script.selectedId
  {
    var path := ProjectPath(flags.path, cwd);
    var start := OpeningTrace(linked, flags.force, path);
    if !Proceeds(linked, flags.force, script.confirm) then
      Run(Declined, start)
    else
      var fetched := start + FetchTrace(shop);
      if |script.fetched| == 0 then
        Run(NoStorefronts, fetched + [MissingStorefrontsNotice])
      else if NamedTarget(flags.storefront) then
        var title := flags.storefront.value;
        match Find(script.fetched, TitleEquals(title))
        case None => Run(NoMatch, fetched + [NoMatchWarning(title, shop)])
        case Some(s) => Run(Linked(s), fetched + CommitTrace(path, s, shop))
      else
        var shown := fetched + [SelectPrompt(Choices(script.fetched, linked))];
        match Find(script.fetched, IdEquals(script.selectedId))
        case None => Run(Unresolved, shown)
        case Some(s) => Run(Linked(s), shown + CommitTrace(path, s, shop))
  }

  // ------------------------------------------------------------ rendering

  const WarningHeadline: string := "Failed to link to storefront"
  const ConfirmQuestion: string := " is currently linked to your local environment. Do you want to change storefronts?"
  const NoMatchOpening: string := "There were no storefront matching "
  const NoMatchShopPart: string := " on your "
  const NoMatchClosing: string := " shop. Run LIST to see available storefronts."
  const SelectMessage: string := "Choose a storefront to link your local development to:"
  const SuccessPrefix: string := "Linked to "
  const AdminUrlPrefix: string := "Admin URL: "
  const SiteUrlPrefix: string := "Site URL: "

  /** `part` occurs in `s` starting at index `at`. */
  predicate HasAt(s: string, at: nat, part: string) {
    at + |part| <= |s| && s[at..at + |part|] == part
  }

  /** In `a + b + c`, `b` sits right after `a`. */
  lemma HasAtMiddle(a: string, b: string, c: string)
    ensures HasAt(a + b + c, |a|, b)
  {
  }

  /** Two values framed by fixed texts: each sits where the texts before it end. */
  function Framed(open: string, a: string, mid: string, b: string, close: string): (r: string)
    ensures |r| == |open| + |a| + |mid| + |b| + |close|
    ensures HasAt(r, |open|, a)
    ensures HasAt(r, |open| + |a| + |mid|, b)
  {
    var head := open + a + mid;
    HasAtMiddle(open, a, mid + b + close);
    HasAtMiddle(head, b, close);
    assert open + a + (mid + b + close) == head + b + close;
    head + b + close
  }

  /** Effects the user sees as text: prompts, the warning and the three output lines. */
  predicate Shows(e: Effect) {
    e.ConfirmPrompt? || e.NoMatchWarning? || e.SelectPrompt? || IsReport(e)
  }

  /** The confirmation message opens with the linked storefront's title. */
  function ConfirmText(title: string): (r: string)
    ensures r != "" && HasAt(r, 0, title)
  {
    HasAtMiddle("", title, ConfirmQuestion);
    title + ConfirmQuestion
  }

  /** The warning body names the requested title and then the shop. */
  function NoMatchText(title: string, shop: string): (r: string)
    ensures r != ""
    ensures HasAt(r, |NoMatchOpening|, title)
    ensures HasAt(r, |NoMatchOpening| + |title| + |NoMatchShopPart|, shop)
  {
    Framed(NoMatchOpening, title, NoMatchShopPart, shop, NoMatchClosing)
  }

  /** A fixed prefix followed by exactly `value`. */
  function Labelled(prefix: string, value: string): (r: string)
    ensures HasAt(r, 0, prefix)
    ensures HasAt(r, |prefix|, value) && |r| == |prefix| + |value|
  {
    HasAtMiddle("", prefix, value);
    HasAtMiddle(prefix, value, "");
    prefix + value
  }

  /**
   * The main text of each effect the user sees: the prompt message, the
   * warning body, the output line. Effects that show nothing render as "".
   * The admin URL line renders as its fixed opening only: the URL after it
   * is built by foreign code from the session and the storefront id.
   */
  function Render(e: Effect): (r: string)
    ensures r != "" <==> Shows(e)
    ensures e.ConfirmPrompt? ==> HasAt(r, 0, e.linkedTitle)
    ensures e.NoMatchWarning? ==>
      && HasAt(r, |NoMatchOpening|, e.title)
      && HasAt(r, |NoMatchOpening| + |e.title| + |NoMatchShopPart|, e.shop)
    ensures e.SelectPrompt? ==> r == SelectMessage
    ensures e.LinkedSuccess? ==> HasAt(r, 0, SuccessPrefix) && HasAt(r, |SuccessPrefix|, e.title) && |r| == |SuccessPrefix| + |e.title|
    ensures e.AdminUrlInfo? ==> HasAt(r, 0, AdminUrlPrefix)
    ensures e.SiteUrlInfo? ==> HasAt(r, 0, SiteUrlPrefix) && HasAt(r, |SiteUrlPrefix|, e.productionUrl) && |r| == |SiteUrlPrefix| + |e.productionUrl|
  {
    match e
    case ConfirmPrompt(t) => ConfirmText(t)
    case NoMatchWarning(t, shop) => NoMatchText(t, shop)
    case SelectPrompt(_) => SelectMessage
    case LinkedSuccess(t) => Labelled(SuccessPrefix, t)
    case AdminUrlInfo(_, _) => AdminUrlPrefix
    case SiteUrlInfo(url) => Labelled(SiteUrlPrefix, url)
    case _ => ""
  }

  /** The headline `renderWarning` shows above the body; only the warning has one. */
  function Headline(e: Effect): (r: string)
    ensures r != "" <==> e.NoMatchWarning?
  {
    if e.NoMatchWarning? then WarningHeadline else ""
  }
}

=== FILE: link_properties.dfy ===
/**
 * Properties of the link workflow, one group per exit path, plus the
 * properties that hold of every run: the config is read once at the start and
 * written at most once, as the last step that changes anything.
 */
module LinkProperties {
  import opened Options
  import opened Storefronts
  import opened Effects
  import opened Link

  // ------------------------------------------------------- trace structure

  function Ind(b: bool): nat {
    if b then 1 else 0
  }

  /** The effects that persist or report a selection. */
  predicate CommitKind(k: Kind) {
    k == Write || k == Success || k == AdminUrl || k == SiteUrl
  }

  /** Occurrences of `k` in the opening and the admin fetch, which every run past the gate performs. */
  function BaseCount(linked: Option<Storefront>, force: Option<bool>, k: Kind): nat {
    Ind(k == Read) + Ind(k == Confirm && NeedsConfirmation(linked, force)) + Ind(k == Session || k == Fetch)
  }

  lemma OpeningCount(linked: Option<Storefront>, force: Option<bool>, path: string, k: Kind)
    ensures Count(OpeningTrace(linked, force, path), k)
      == (if k == Read then 1 else 0) + (if k == Confirm && NeedsConfirmation(linked, force) then 1 else 0)
  {
    if NeedsConfirmation(linked, force) {
      CountAppend([ConfigRead(path)], [ConfirmPrompt(linked.value.title)], k);
    }
  }

  lemma FetchCount(shop: string, k: Kind)
    ensures Count(FetchTrace(shop), k) == if k == Session || k == Fetch then 1 else 0
  {
  }

  lemma CommitCount(path: string, s: Storefront, shop: string, k: Kind)
    ensures Count(CommitTrace(path, s, shop), k)
      == if k == Write || k == Success || k == AdminUrl || k == SiteUrl then 1 else 0
  {
    var t := CommitTrace(path, s, shop);
    var t1, t2, t3 := t[1..], t[1..][1..], t[1..][1..][1..];
    assert t3 == [SiteUrlInfo(s.productionUrl)];
    assert Count(t3, k) == if k == SiteUrl then 1 else 0;
    assert Count(t2, k) == (if k == AdminUrl then 1 else 0) + Count(t3, k);
    assert Count(t1, k) == (if k == Success then 1 else 0) + Count(t2, k);
  }

  /** Effects of a run that got past the gate, up to and including the storefront fetch. */
  lemma FetchedCount(linked: Option<Storefront>, force: Option<bool>, path: string, shop: string, k: Kind)
    ensures Count(OpeningTrace(linked, force, path) + FetchTrace(shop), k) == BaseCount(linked, force, k)
  {
    OpeningCount(linked, force, path, k);
    FetchCount(shop, k);
    CountAppend(OpeningTrace(linked, force, path), FetchTrace(shop), k);
  }

  /** Effects of a run that reached the select prompt, up to and including the prompt. */
  lemma ShownCount(linked: Option<Storefront>, force: Option<bool>, path: string, shop: string, prompt: Effect, k: Kind)
    requires prompt.SelectPrompt?
    ensures Count(OpeningTrace(linked, force, path) + FetchTrace(shop) + [prompt], k) == BaseCount(linked, force, k) + Ind(k == Select)
  {
    FetchedCount(linked, force, path, shop, k);
    CountAppend(OpeningTrace(linked, force, path) + FetchTrace(shop), [prompt], k);
  }

  /** Every run begins by reading the project config, and reads it only then. */
  lemma ConfigReadOnceFirst(linked: Option<Storefront>, flags: Flags, shop: string, cwd: string, script: Script)
    ensures var r := LinkStorefront(linked, flags, shop, cwd, script);
      |r.trace| > 0 && r.trace[0] == ConfigRead(ProjectPath(flags.path, cwd)) && Count(r.trace, Read) == 1
  {
    EachPath(linked, flags, shop, cwd, script);
  }

  /** Invokes the lemma of whichever path the run takes. */
  lemma EachPath(linked: Option<Storefront>, flags: Flags, shop: string, cwd: string, script: Script)
    ensures var r := LinkStorefront(linked, flags, shop, cwd, script);
      && (r.outcome == Declined ==>
            forall k :: Count(r.trace, k) == Ind(k == Read) + Ind(k == Confirm))
      && (r.outcome == NoStorefronts ==>
            forall k :: Count(r.trace, k) == BaseCount(linked, flags.force, k) + Ind(k == Missing))
      && (r.outcome == NoMatch ==>
            forall k :: Count(r.trace, k) == BaseCount(linked, flags.force, k) + Ind(k == Warn))
      && (r.outcome == Unresolved ==>
            forall k :: Count(r.trace, k) == BaseCount(linked, flags.force, k) + Ind(k == Select))
      && (r.outcome.Linked? && NamedTarget(flags.storefront) ==>
            forall k :: Count(r.trace, k) == BaseCount(linked, flags.force, k) + Ind(CommitKind(k)))
      && (r.outcome.Linked? && !NamedTarget(flags.storefront) ==>
            forall k :: Count(r.trace, k) == BaseCount(linked, flags.force, k) + Ind(k == Select) + Ind(CommitKind(k)))
      && var start := OpeningTrace(linked, flags.force, ProjectPath(flags.path, cwd));
         |start| <= |r.trace| && r.trace[..|start|] == start
  {
    var start := OpeningTrace(linked, flags.force, ProjectPath(flags.path, cwd));
    if !Proceeds(linked, flags.force, script.confirm) {
      DeclinedPath(linked, flags, shop, cwd, script);
    } else if |script.fetched| == 0 {
      EmptyPath(linked, flags, shop, cwd, script);
    } else if NamedTarget(flags.storefront) {
      if Find(script.fetched, TitleEquals(flags.storefront.value)).None? {
        NoMatchPath(linked, flags, shop, cwd, script);
      } else {
        NamedLinkPath(linked, flags, shop, cwd, script);
      }
    } else {
      if Find(script.fetched, IdEquals(script.selectedId)).None? {
        UnresolvedPath(linked, flags, shop, cwd, script);
      } else {
        PickedLinkPath(linked, flags, shop, cwd, script);
      }
    }
  }

  /** The run stops at the gate: the trace is the config read and the declined prompt. */
  lemma DeclinedPath(linked: Option<Storefront>, flags: Flags, shop: string, cwd: string, script: Script)
    requires !Proceeds(linked, flags.force, script.confirm)
    ensures var r := LinkStorefront(linked, flags, shop, cwd, script);
      && r.outcome == Declined
      && r.trace == OpeningTrace(linked, flags.force, ProjectPath(flags.path, cwd))
      && forall k :: Count(r.trace, k) == Ind(k == Read) + Ind(k == Confirm)
  {
    var path := ProjectPath(flags.path, cwd);
    forall k
      ensures Count(OpeningTrace(linked, flags.force, path), k) == Ind(k == Read) + Ind(k == Confirm)
    {
      OpeningCount(linked, flags.force, path, k);
    }
  }

  /** Past the gate with nothing fetched: the trace ends with the missing-storefronts notice. */
  lemma EmptyPath(linked: Option<Storefront>, flags: Flags, shop: string, cwd: string, script: Script)
    requires Proceeds(linked, flags.force, script.confirm) && |script.fetched| == 0
    ensures var r := LinkStorefront(linked, flags, shop, cwd, script);
      && r.outcome == NoStorefronts
      && r.trace == OpeningTrace(linked, flags.force, ProjectPath(flags.path, cwd)) + FetchTrace(shop) + [MissingStorefrontsNotice]
      && forall k :: Count(r.trace, k) == BaseCount(linked, flags.force, k) + Ind(k == Missing)
  {
    var path := ProjectPath(flags.path, cwd);
    var start := OpeningTrace(linked, flags.force, path);
    var fetched := start + FetchTrace(shop);
    forall k
      ensures Count(fetched + [MissingStorefrontsNotice], k) == BaseCount(linked, flags.force, k) + Ind(k == Missing)
    {
      FetchedCount(linked, flags.force, path, shop, k);
      CountAppend(fetched, [MissingStorefrontsNotice], k);
    }
  }

  /** A title that no storefront has: the trace ends with the warning. */
  lemma NoMatchPath(linked: Option<Storefront>, flags: Flags, shop: string, cwd: string, script: Script)
    requires Proceeds(linked, flags.force, script.confirm) && |script.fetched| > 0
    requires NamedTarget(flags.storefront) && Find(script.fetched, TitleEquals(flags.storefront.value)).None?
    ensures var r := LinkStorefront(linked, flags, shop, cwd, script);
      && r.outcome == NoMatch
      && r.trace == OpeningTrace(linked, flags.force, ProjectPath(flags.path, cwd)) + FetchTrace(shop)
                    + [NoMatchWarning(flags.storefront.value, shop)]
      && forall k :: Count(r.trace, k) == BaseCount(linked, flags.force, k) + Ind(k == Warn)
  {
    var path := ProjectPath(flags.path, cwd);
    var start := OpeningTrace(linked, flags.force, path);
    var fetched := start + FetchTrace(shop);
    var warning := NoMatchWarning(flags.storefront.value, shop);
    forall k
      ensures Count(fetched + [warning], k) == BaseCount(linked, flags.force, k) + Ind(k == Warn)
    {
      FetchedCount(linked, flags.force, path, shop, k);
      CountAppend(fetched, [warning], k);
    }
  }

  /** A title some storefront has: the trace ends with the commit of the first such storefront. */
  lemma NamedLinkPath(linked: Option<Storefront>, flags: Flags, shop: string, cwd: string, script: Script)
    requires Proceeds(linked, flags.force, script.confirm) && |script.fetched| > 0
    requires NamedTarget(flags.storefront) && Find(script.fetched, TitleEquals(flags.storefront.value)).Some?
    ensures var r := LinkStorefront(linked, flags, shop, cwd, script);
      var s := Find(script.fetched, TitleEquals(flags.storefront.value)).value;
      && r.outcome == Linked(s)
      && r.trace == OpeningTrace(linked, flags.force, ProjectPath(flags.path, cwd)) + FetchTrace(shop)
                    + CommitTrace(ProjectPath(flags.path, cwd), s, shop)
      && forall k :: Count(r.trace, k) == BaseCount(linked, flags.force, k) + Ind(CommitKind(k))
  {
    var path := ProjectPath(flags.path, cwd);
    var start := OpeningTrace(linked, flags.force, path);
    var fetched := start + FetchTrace(shop);
    var s := Find(script.fetched, TitleEquals(flags.storefront.value)).value;
    var commit := CommitTrace(path, s, shop);
    forall k
      ensures Count(fetched + commit, k) == BaseCount(linked, flags.force, k) + Ind(CommitKind(k))
    {
      FetchedCount(linked, flags.force, path, shop, k);
      CommitCount(path, s, shop, k);
      CountAppend(fetched, commit, k);
    }
  }

  /** An answer to the select prompt that matches no id: the trace ends with the prompt. */
  lemma UnresolvedPath(linked: Option<Storefront>, flags: Flags, shop: string, cwd: string, script: Script)
    requires Proceeds(linked, flags.force, script.confirm) && |script.fetched| > 0
    requires !NamedTarget(flags.storefront) && Find(script.fetched, IdEquals(script.selectedId)).None?
    ensures var r := LinkStorefront(linked, flags, shop, cwd, script);
      && r.outcome == Unresolved
      && r.trace == OpeningTrace(linked, flags.force, ProjectPath(flags.path, cwd)) + FetchTrace(shop)
                    + [SelectPrompt(Choices(script.fetched, linked))]
      && forall k :: Count(r.trace, k) == BaseCount(linked, flags.force, k) + Ind(k == Select)
  {
    var path := ProjectPath(flags.path, cwd);
    var start := OpeningTrace(linked, flags.force, path);
    var fetched := start + FetchTrace(shop);
    var prompt := SelectPrompt(Choices(script.fetched, linked));
    forall k
      ensures Count(fetched + [prompt], k) == BaseCount(linked, flags.force, k) + Ind(k == Select)
    {
      ShownCount(linked, flags.force, path, shop, prompt, k);
    }
  }

  /** An answer that matches an id: the trace ends with the prompt and the commit of the first such storefront. */
  lemma PickedLinkPath(linked: Option<Storefront>, flags: Flags, shop: string, cwd: string, script: Script)
    requires Proceeds(linked, flags.force, script.confirm) && |script.fetched| > 0
    requires !NamedTarget(flags.storefront) && Find(script.fetched, IdEquals(script.selectedId)).Some?
    ensures var r := LinkStorefront(linked, flags, shop, cwd, script);
      var s := Find(script.fetched, IdEquals(script.selectedId)).value;
      && r.outcome == Linked(s)
      && r.trace == OpeningTrace(linked, flags.force, ProjectPath(flags.path, cwd)) + FetchTrace(shop)
                    + [SelectPrompt(Choices(script.fetched, linked))]
                    + CommitTrace(ProjectPath(flags.path, cwd), s, shop)
      && forall k :: Count(r.trace, k) == BaseCount(linked, flags.force, k) + Ind(k == Select) + Ind(CommitKind(k))
  {
    var path := ProjectPath(flags.path, cwd);
    var start := OpeningTrace(linked, flags.force, path);
    var fetched := start + FetchTrace(shop);
    var prompt := SelectPrompt(Choices(script.fetched, linked));
    var shown := fetched + [prompt];
    var s := Find(script.fetched, IdEquals(script.selectedId)).value;
    var commit := CommitTrace(path, s, shop);
    forall k
      ensures Count(shown + commit, k) == BaseCount(linked, flags.force, k) + Ind(k == Select) + Ind(CommitKind(k))
    {
      ShownCount(linked, flags.force, path, shop, prompt, k);
      CommitCount(path, s, shop, k);
      CountAppend(shown, commit, k);
    }
  }

  /**
   * How often each kind of effect occurs in a run: the config read always, the
   * confirmation when the gate asks, the admin calls unless declined, then the
   * one effect that marks the exit, and the commit effects only when linking.
   * One formula for every run, folded from the per-path counts of `EachPath`.
   */
  lemma Census(linked: Option<Storefront>, flags: Flags, shop: string, cwd: string, script: Script)
    ensures var r := LinkStorefront(linked, flags, shop, cwd, script);
      forall k :: Count(r.trace, k) ==
        if r.outcome == Declined then Ind(k == Read) + Ind(k == Confirm)
        else
          BaseCount(linked, flags.force, k)
          + Ind(r.outcome == NoStorefronts && k == Missing)
          + Ind(r.outcome == NoMatch && k == Warn)
          + Ind(k == Select && (r.outcome == Unresolved || (r.outcome.Linked? && !NamedTarget(flags.storefront))))
          + Ind(r.outcome.Linked? && CommitKind(k))
  {
    EachPath(linked, flags, shop, cwd, script);
  }

  /** Which outcome each combination of gate answer, fetched list and flag leads to. */
  lemma OutcomeByPath(linked: Option<Storefront>, flags: Flags, shop: string, cwd: string, script: Script)
    ensures var r := LinkStorefront(linked, flags, shop, cwd, script);
      var byTitle := Find(script.fetched, TitleEquals(flags.storefront.GetOr("")));
      var byId := Find(script.fetched, IdEquals(script.selectedId));
      && (r.outcome == Declined <==> !Proceeds(linked, flags.force, script.confirm))
      && (r.outcome == NoStorefronts <==> Proceeds(linked, flags.force, script.confirm) && |script.fetched| == 0)
      && (r.outcome == NoMatch <==>
            Proceeds(linked, flags.force, script.confirm) && |script.fetched| > 0
            && NamedTarget(flags.storefront) && byTitle.None?)
      && (r.outcome == Unresolved <==>
            Proceeds(linked, flags.force, script.confirm) && |script.fetched| > 0
            && !NamedTarget(flags.storefront) && byId.None?)
      && (r.outcome.Linked? ==>
            && Proceeds(linked, flags.force, script.confirm) && |script.fetched| > 0
            && Some(r.outcome.storefront) == if NamedTarget(flags.storefront) then byTitle else byId)
  {
  }

  // ---------------------------------------------------------------- the gate

  /** With nothing linked, or with `force`, no confirmation is asked and the run reaches the admin API. */
  lemma GateSkippedWhenUnlinkedOrForced(linked: Option<Storefront>, flags: Flags, shop: string, cwd: string, script: Script)
    requires linked.None? || Forced(flags.force)
    ensures var r := LinkStorefront(linked, flags, shop, cwd, script);
      && Count(r.trace, Confirm) == 0
      && r.outcome != Declined
      && Count(r.trace, Session) == 1
      && Count(r.trace, Fetch) == 1
  {
    OutcomeByPath(linked, flags, shop, cwd, script);
    Census(linked, flags, shop, cwd, script);
  }

  /** With a linked storefront and no `force`, exactly one confirmation names the linked title, right after the config read. */
  lemma GateAsksWhenLinkedAndNotForced(linked: Option<Storefront>, flags: Flags, shop: string, cwd: string, script: Script)
    requires linked.Some? && !Forced(flags.force)
    ensures var r := LinkStorefront(linked, flags, shop, cwd, script);
      && Count(r.trace, Confirm) == 1
      && |r.trace| > 1
      && r.trace[1] == ConfirmPrompt(linked.value.title)
  {
    Census(linked, flags, shop, cwd, script);
    var path := ProjectPath(flags.path, cwd);
    var start := OpeningTrace(linked, flags.force, path);
    assert start == [ConfigRead(path), ConfirmPrompt(linked.value.title)];
    var r := LinkStorefront(linked, flags, shop, cwd, script);
    assert r.trace[..2] == start;
  }

  /**
   * A run ends as `Declined` exactly when the gate asked and the user said no;
   * such a run never opens an admin session, never fetches, never writes.
   * Every other run opens the session and fetches exactly once.
   */
  lemma DeclineStopsBeforeSession(linked: Option<Storefront>, flags: Flags, shop: string, cwd: string, script: Script)
    ensures var r := LinkStorefront(linked, flags, shop, cwd, script);
      r.outcome == Declined <==> linked.Some? && !Forced(flags.force) && !script.confirm
    ensures var r := LinkStorefront(linked, flags, shop, cwd, script);
      r.outcome == Declined ==>
        && Count(r.trace, Session) == 0
        && Count(r.trace, Fetch) == 0
        && Count(r.trace, Write) == 0
        && Count(r.trace, Success) == 0
    ensures var r := LinkStorefront(linked, flags, shop, cwd, script);
      r.outcome != Declined ==> Count(r.trace, Session) == 1 && Count(r.trace, Fetch) == 1
  {
    OutcomeByPath(linked, flags, shop, cwd, script);
    Census(linked, flags, shop, cwd, script);
  }

  // ------------------------------------------------------------ empty list

  /**
   * A run past the gate whose fetch returns no storefronts shows the
   * missing-storefronts notice once and stops: no prompt, no write, no success output.
   */
  lemma EmptyListNotifiesAndStops(linked: Option<Storefront>, flags: Flags, shop: string, cwd: string, script: Script)
    ensures var r := LinkStorefront(linked, flags, shop, cwd, script);
      r.outcome == NoStorefronts <==> Proceeds(linked, flags.force, script.confirm) && |script.fetched| == 0
    ensures var r := LinkStorefront(linked, flags, shop, cwd, script);
      r.outcome == NoStorefronts ==>
        && Count(r.trace, Missing) == 1
        && r.trace[|r.trace| - 1] == MissingStorefrontsNotice
        && Count(r.trace, Select) == 0
        && Count(r.trace, Warn) == 0
        && Count(r.trace, Write) == 0
        && Count(r.trace, Success) == 0
    ensures var r := LinkStorefront(linked, flags, shop, cwd, script);
      r.outcome != NoStorefronts ==> Count(r.trace, Missing) == 0
  {
    OutcomeByPath(linked, flags, shop, cwd, script);
    Census(linked, flags, shop, cwd, script);
    if Proceeds(linked, flags.force, script.confirm) && |script.fetched| == 0 {
      EmptyPath(linked, flags, shop, cwd, script);
    }
  }

  // ------------------------------------------------------- named selection

  /**
   * With a non-empty `storefront` flag the run never shows the select prompt;
   * it either links or, exactly when no fetched title equals the flag, warns
   * once, naming the title and the shop, and writes nothing.
   */
  lemma NamedSelectionWarnsOnNoMatch(linked: Option<Storefront>, flags: Flags, shop: string, cwd: string, script: Script)
    requires Proceeds(linked, flags.force, script.confirm) && |script.fetched| > 0
    requires NamedTarget(flags.storefront)
    ensures var r := LinkStorefront(linked, flags, shop, cwd, script);
      && Count(r.trace, Select) == 0
      && (r.outcome.Linked? || r.outcome == NoMatch)
    ensures var r := LinkStorefront(linked, flags, shop, cwd, script);
      r.outcome == NoMatch <==> forall i :: 0 <= i < |script.fetched| ==> script.fetched[i].title != flags.storefront.value
    ensures var r := LinkStorefront(linked, flags, shop, cwd, script);
      r.outcome == NoMatch ==>
        && Count(r.trace, Warn) == 1
        && r.trace[|r.trace| - 1] == NoMatchWarning(flags.storefront.value, shop)
        && Count(r.trace, Write) == 0
        && Count(r.trace, Success) == 0
  {
    OutcomeByPath(linked, flags, shop, cwd, script);
    if Find(script.fetched, TitleEquals(flags.storefront.value)).None? {
      NoMatchPath(linked, flags, shop, cwd, script);
    } else {
      NamedLinkPath(linked, flags, shop, cwd, script);
    }
  }

  /**
   * With a non-empty `storefront` flag the run links the first fetched
   * storefront whose title equals the flag exactly (case-sensitive).
   */
  lemma NamedSelectionPicksFirstTitle(linked: Option<Storefront>, flags: Flags, shop: string, cwd: string, script: Script, i: int)
    requires Proceeds(linked, flags.force, script.confirm)
    requires NamedTarget(flags.storefront)
    requires IsFirstMatch(script.fetched, TitleEquals(flags.storefront.value), i)
    ensures LinkStorefront(linked, flags, shop, cwd, script).outcome == Linked(script.fetched[i])
  {
    OutcomeByPath(linked, flags, shop, cwd, script);
    FindReturnsFirstMatch(script.fetched, TitleEquals(flags.storefront.value), i);
  }

  // ------------------------------------------------- interactive selection

  /**
   * An absent or empty `storefront` flag sends the run to the select prompt,
   * shown once with one choice per fetched storefront; no warning is possible,
   * and the run either links or ends unresolved.
   */
  lemma InteractiveSelectionPrompts(linked: Option<Storefront>, flags: Flags, shop: string, cwd: string, script: Script)
    requires Proceeds(linked, flags.force, script.confirm) && |script.fetched| > 0
    requires !NamedTarget(flags.storefront)
    ensures var r := LinkStorefront(linked, flags, shop, cwd, script);
      && Count(r.trace, Select) == 1
      && Count(r.trace, Warn) == 0
      && SelectPrompt(Choices(script.fetched, linked)) in r.trace
      && (r.outcome.Linked? || r.outcome == Unresolved)
  {
    var r := LinkStorefront(linked, flags, shop, cwd, script);
    var prompt := SelectPrompt(Choices(script.fetched, linked));
    var fetched := OpeningTrace(linked, flags.force, ProjectPath(flags.path, cwd)) + FetchTrace(shop);
    if Find(script.fetched, IdEquals(script.selectedId)).None? {
      assert && r.outcome == Unresolved
             && Count(r.trace, Select) == 1 && Count(r.trace, Warn) == 0
             && |fetched| < |r.trace| && r.trace[|fetched|] == prompt by {
        UnresolvedPath(linked, flags, shop, cwd, script);
      }
    } else {
      assert && r.outcome.Linked?
             && Count(r.trace, Select) == 1 && Count(r.trace, Warn) == 0
             && |fetched| < |r.trace| && r.trace[|fetched|] == prompt by {
        PickedLinkPath(linked, flags, shop, cwd, script);
      }
    }
  }

  /**
   * The run ends unresolved exactly when the prompt's answer matches no
   * fetched id; it then stops silently right after the prompt, with nothing
   * written and no success output.
   */
  lemma UnresolvedAnswerStopsSilently(linked: Option<Storefront>, flags: Flags, shop: string, cwd: string, script: Script)
    requires Proceeds(linked, flags.force, script.confirm) && |script.fetched| > 0
    requires !NamedTarget(flags.storefront)
    ensures var r := LinkStorefront(linked, flags, shop, cwd, script);
      r.outcome == Unresolved <==> forall i :: 0 <= i < |script.fetched| ==> script.fetched[i].id != script.selectedId
    ensures var r := LinkStorefront(linked, flags, shop, cwd, script);
      r.outcome == Unresolved ==>
        && r.trace[|r.trace| - 1] == SelectPrompt(Choices(script.fetched, linked))
        && Count(r.trace, Write) == 0
        && Count(r.trace, Success) == 0
        && Count(r.trace, Warn) == 0
  {
    OutcomeByPath(linked, flags, shop, cwd, script);
    if Find(script.fetched, IdEquals(script.selectedId)).None? {
      UnresolvedPath(linked, flags, shop, cwd, script);
    }
  }

  /** The select prompt's answer links the first fetched storefront whose id equals it. */
  lemma InteractiveSelectionPicksFirstId(linked: Option<Storefront>, flags: Flags, shop: string, cwd: string, script: Script, i: int)
    requires Proceeds(linked, flags.force, script.confirm)
    requires !NamedTarget(flags.storefront)
    requires IsFirstMatch(script.fetched, IdEquals(script.selectedId), i)
    ensures LinkStorefront(linked, flags, shop, cwd, script).outcome == Linked(script.fetched[i])
  {
    OutcomeByPath(linked, flags, shop, cwd, script);
    FindReturnsFirstMatch(script.fetched, IdEquals(script.selectedId), i);
  }

  /** Every offered choice resolves back to a fetched storefront with that id, and to that very storefront when ids are unique. */
  lemma ChoicesResolve(fetched: seq<Storefront>, linked: Option<Storefront>, i: int)
    requires 0 <= i < |fetched|
    ensures var c := Choices(fetched, linked);
      && Find(fetched, IdEquals(c[i].value)).Some?
      && Find(fetched, IdEquals(c[i].value)).value.id == fetched[i].id
    ensures (forall j, k :: 0 <= j < k < |fetched| ==> fetched[j].id != fetched[k].id) ==>
      Find(fetched, IdEquals(Choices(fetched, linked)[i].value)) == Some(fetched[i])
  {
    var c := Choices(fetched, linked);
    ChoiceAt(fetched, linked, i);
    assert Matches(fetched[i], IdEquals(c[i].value));
    if forall j, k :: 0 <= j < k < |fetched| ==> fetched[j].id != fetched[k].id {
      assert IsFirstMatch(fetched, IdEquals(c[i].value), i);
      FindReturnsFirstMatch(fetched, IdEquals(c[i].value), i);
    }
  }

  /** When the select prompt returns one of the values it offered, the run always links. */
  lemma OfferedAnswerLinks(linked: Option<Storefront>, flags: Flags, shop: string, cwd: string, script: Script, i: int)
    requires Proceeds(linked, flags.force, script.confirm) && !NamedTarget(flags.storefront)
    requires 0 <= i < |script.fetched|
    requires script.selectedId == Choices(script.fetched, linked)[i].value
    ensures var r := LinkStorefront(linked, flags, shop, cwd, script);
      r.outcome.Linked? && r.outcome.storefront.id == script.fetched[i].id
  {
    OutcomeByPath(linked, flags, shop, cwd, script);
    ChoicesResolve(script.fetched, linked, i);
  }

  /** With unique ids, at most one choice carries the " (Current)" marker. */
  lemma CurrentMarkerAtMostOnce(fetched: seq<Storefront>, linked: Option<Storefront>, i: int, j: int)
    requires forall a, b :: 0 <= a < b < |fetched| ==> fetched[a].id != fetched[b].id
    requires 0 <= i < |fetched| && 0 <= j < |fetched|
    requires Choices(fetched, linked)[i].text == BaseLabel(fetched[i]) + CurrentMarker
    requires Choices(fetched, linked)[j].text == BaseLabel(fetched[j]) + CurrentMarker
    ensures i == j
  {
    ChoiceAt(fetched, linked, i);
    ChoiceAt(fetched, linked, j);
    assert IsCurrent(fetched[i], linked) && IsCurrent(fetched[j], linked);
  }

  // ------------------------------------------------------------ the commit

  /** The config is written at most once, and written exactly when the run links. */
  lemma WriteOnlyWhenLinked(linked: Option<Storefront>, flags: Flags, shop: string, cwd: string, script: Script)
    ensures var r := LinkStorefront(linked, flags, shop, cwd, script);
      && Count(r.trace, Write) <= 1
      && (Count(r.trace, Write) == 1 <==> r.outcome.Linked?)
  {
    EachPath(linked, flags, shop, cwd, script);
  }

  /** Counts behind `NoReportUnlessLinked`: a run that does not link has no effect of an output kind. */
  lemma NoReportCounts(linked: Option<Storefront>, flags: Flags, shop: string, cwd: string, script: Script)
    ensures var r := LinkStorefront(linked, flags, shop, cwd, script);
      !r.outcome.Linked? ==>
        Count(r.trace, Success) == 0 && Count(r.trace, AdminUrl) == 0 && Count(r.trace, SiteUrl) == 0
  {
    EachPath(linked, flags, shop, cwd, script);
  }

  /**
   * A run that does not link reports nothing: no success line, no admin URL,
   * no site URL, so no effect of its trace is a report line.
   */
  lemma NoReportUnlessLinked(linked: Option<Storefront>, flags: Flags, shop: string, cwd: string, script: Script)
    ensures var r := LinkStorefront(linked, flags, shop, cwd, script);
      !r.outcome.Linked? ==>
        && Count(r.trace, Success) == 0
        && Count(r.trace, AdminUrl) == 0
        && Count(r.trace, SiteUrl) == 0
        && forall i :: 0 <= i < |r.trace| ==> !IsReport(r.trace[i])
  {
    NoReportCounts(linked, flags, shop, cwd, script);
    var r := LinkStorefront(linked, flags, shop, cwd, script);
    if !r.outcome.Linked? {
      NoReportWithoutReportKinds(r.trace);
    }
  }

  /**
   * A linking run writes the selected storefront to the path the config was
   * read from, reports success once naming its title, prints its admin URL,
   * and ends with the line giving its production URL.
   */
  lemma LinkedRunCommits(linked: Option<Storefront>, flags: Flags, shop: string, cwd: string, script: Script)
    requires LinkStorefront(linked, flags, shop, cwd, script).outcome.Linked?
    ensures var r := LinkStorefront(linked, flags, shop, cwd, script);
      && ConfigWritten(ProjectPath(flags.path, cwd), r.outcome.storefront) in r.trace
      && Count(r.trace, Success) == 1
      && LinkedSuccess(r.outcome.storefront.title) in r.trace
      && AdminUrlInfo(shop, r.outcome.storefront.id) in r.trace
      && r.trace[|r.trace| - 1] == SiteUrlInfo(r.outcome.storefront.productionUrl)
  {
    var r := LinkStorefront(linked, flags, shop, cwd, script);
    var commit := CommitTrace(ProjectPath(flags.path, cwd), r.outcome.storefront, shop);
    LinkedTraceEndsWithCommit(linked, flags, shop, cwd, script);
    var n := |r.trace| - 4;
    assert r.trace[n] == commit[0] && r.trace[n + 1] == commit[1] && r.trace[n + 2] == commit[2];
    assert Count(r.trace, Success) == 1 by {
      EachPath(linked, flags, shop, cwd, script);
    }
  }

  /** A linking run's trace ends with the commit of the linked storefront. */
  lemma LinkedTraceEndsWithCommit(linked: Option<Storefront>, flags: Flags, shop: string, cwd: string, script: Script)
    requires LinkStorefront(linked, flags, shop, cwd, script).outcome.Linked?
    ensures var r := LinkStorefront(linked, flags, shop, cwd, script);
      && |r.trace| >= 4
      && r.trace[|r.trace| - 4..] == CommitTrace(ProjectPath(flags.path, cwd), r.outcome.storefront, shop)
  {
    OutcomeByPath(linked, flags, shop, cwd, script);
    if NamedTarget(flags.storefront) {
      NamedLinkPath(linked, flags, shop, cwd, script);
    } else {
      PickedLinkPath(linked, flags, shop, cwd, script);
    }
  }

  /** Nothing but report lines follows the config write: it is the last step that changes anything. */
  lemma WriteIsLastMutation(linked: Option<Storefront>, flags: Flags, shop: string, cwd: string, script: Script)
    ensures var t := LinkStorefront(linked, flags, shop, cwd, script).trace;
      forall i, j :: 0 <= i < j < |t| && t[i].ConfigWritten? ==> IsReport(t[j])
  {
  }

  // ------------------------------------------------------------- rendering

  /**
   * What a linking run prints: the success line names the linked title and
   * the last line gives its production URL.
   */
  lemma LinkedRunPrintsTitleAndUrl(linked: Option<Storefront>, flags: Flags, shop: string, cwd: string, script: Script)
    requires LinkStorefront(linked, flags, shop, cwd, script).outcome.Linked?
    ensures var r := LinkStorefront(linked, flags, shop, cwd, script);
      && |r.trace| >= 3
      && Render(r.trace[|r.trace| - 3]) == SuccessPrefix + r.outcome.storefront.title
      && Render(r.trace[|r.trace| - 1]) == SiteUrlPrefix + r.outcome.storefront.productionUrl
  {
    LinkedTraceEndsWithCommit(linked, flags, shop, cwd, script);
    var r := LinkStorefront(linked, flags, shop, cwd, script);
    var commit := CommitTrace(ProjectPath(flags.path, cwd), r.outcome.storefront, shop);
    assert r.trace[|r.trace| - 3] == commit[1];
  }

  /** The confirmation the gate shows names the storefront that is currently linked. */
  lemma ConfirmationNamesLinkedTitle(linked: Option<Storefront>, flags: Flags, shop: string, cwd: string, script: Script)
    requires linked.Some? && !Forced(flags.force)
    ensures var r := LinkStorefront(linked, flags, shop, cwd, script);
      && |r.trace| > 1
      && HasAt(Render(r.trace[1]), 0, linked.value.title)
  {
    GateAsksWhenLinkedAndNotForced(linked, flags, shop, cwd, script);
  }

  /**
   * A run that finds no storefront with the requested title ends with the
   * warning: headline "Failed to link to storefront", and a body that names
   * the requested title and the shop.
   */
  lemma NoMatchRunNamesTitleAndShop(linked: Option<Storefront>, flags: Flags, shop: string, cwd: string, script: Script)
    requires LinkStorefront(linked, flags, shop, cwd, script).outcome == NoMatch
    ensures var r := LinkStorefront(linked, flags, shop, cwd, script);
      && flags.storefront.Some?
      && |r.trace| > 0
      && var last := r.trace[|r.trace| - 1];
      && Headline(last) == WarningHeadline
      && HasAt(Render(last), |NoMatchOpening|, flags.storefront.value)
      && HasAt(Render(last), |NoMatchOpening| + |flags.storefront.value| + |NoMatchShopPart|, shop)
  {
    OutcomeByPath(linked, flags, shop, cwd, script);
    NoMatchPath(linked, flags, shop, cwd, script);
  }
}

=== FILE: link_scenarios.dfy ===
/**
 * Concrete runs of the link workflow, worked out
 * from the general properties.
 */
module LinkScenarios {
  import opened Options
  import opened Storefronts
  import opened Effects
  import opened Link
  import opened LinkProperties

  const Prod := Storefront("gid://1", "Prod", "https://a.com")
  const LowerProd := Storefront("gid://2", "prod", "https://b.com")

  /** Title matching is case-sensitive: asking for "prod" links the second storefront, not "Prod". */
  lemma CaseSensitiveTitleMatch(shop: string, cwd: string, confirm: bool, selectedId: string)
    ensures var flags := Flags(None, None, Some("prod"));
      var script := Script(confirm, [Prod, LowerProd], selectedId);
      LinkStorefront(None, flags, shop, cwd, script).outcome == Linked(LowerProd)
  {
    var flags := Flags(None, None, Some("prod"));
    var script := Script(confirm, [Prod, LowerProd], selectedId);
    assert IsFirstMatch(script.fetched, TitleEquals("prod"), 1);
    NamedSelectionPicksFirstTitle(None, flags, shop, cwd, script, 1);
  }

  /** One storefront titled "Prod", nothing linked, `--storefront Prod`: it is written and success is reported once. */
  lemma LinkByTitleFromScratch(shop: string, cwd: string, confirm: bool, selectedId: string)
    ensures var flags := Flags(None, None, Some("Prod"));
      var r := LinkStorefront(None, flags, shop, cwd, Script(confirm, [Prod], selectedId));
      && r.outcome == Linked(Prod)
      && ConfigWritten(cwd, Prod) in r.trace
      && Count(r.trace, Write) == 1
      && Count(r.trace, Success) == 1
  {
    var flags := Flags(None, None, Some("Prod"));
    var script := Script(confirm, [Prod], selectedId);
    assert IsFirstMatch(script.fetched, TitleEquals("Prod"), 0);
    NamedSelectionPicksFirstTitle(None, flags, shop, cwd, script, 0);
    WriteOnlyWhenLinked(None, flags, shop, cwd, script);
    LinkedRunCommits(None, flags, shop, cwd, script);
  }

  /** A shop without storefronts, nothing linked: the notice is shown, nothing is written or reported. */
  lemma NoStorefrontsFromScratch(flags: Flags, shop: string, cwd: string, confirm: bool, selectedId: string)
    ensures var r := LinkStorefront(None, flags, shop, cwd, Script(confirm, [], selectedId));
      && r.outcome == NoStorefronts
      && Count(r.trace, Missing) == 1
      && Count(r.trace, Write) == 0
      && Count(r.trace, Success) == 0
  {
    EmptyListNotifiesAndStops(None, flags, shop, cwd, Script(confirm, [], selectedId));
  }

  /** Something linked, no `--force`, the user answers no: nothing is fetched and nothing is written. */
  lemma DeclineKeepsLink(path: Option<string>, storefront: Option<string>, shop: string, cwd: string,
                         fetched: seq<Storefront>, selectedId: string)
    ensures var r := LinkStorefront(Some(Prod), Flags(None, path, storefront), shop, cwd, Script(false, fetched, selectedId));
      && r.outcome == Declined
      && Count(r.trace, Fetch) == 0
      && Count(r.trace, Write) == 0
  {
    DeclineStopsBeforeSession(Some(Prod), Flags(None, path, storefront), shop, cwd, Script(false, fetched, selectedId));
  }

  /** `--storefront ""` is falsy: the select prompt is shown and no title lookup or warning happens. */
  lemma EmptyTitleFlagPrompts(linked: Option<Storefront>, shop: string, cwd: string, selectedId: string)
    ensures var r := LinkStorefront(linked, Flags(Some(true), None, Some("")), shop, cwd, Script(false, [Prod], selectedId));
      && Count(r.trace, Select) == 1
      && Count(r.trace, Warn) == 0
      && Count(r.trace, Confirm) == 0
  {
    var flags := Flags(Some(true), None, Some(""));
    var script := Script(false, [Prod], selectedId);
    InteractiveSelectionPrompts(linked, flags, shop, cwd, script);
    GateSkippedWhenUnlinkedOrForced(linked, flags, shop, cwd, script);
  }
}

=== FILE: options.dfy ===
/** Optional values: the model's stand-in for a JavaScript value that may be `undefined`. */
module Options {

  datatype Option<+T> = None | Some(value: T) {

    /** `value ?? default`: a present value, even an empty one, wins over the fallback. */
    function GetOr(default: T): (r: T)
      ensures Some? ==> r == value
      ensures None? ==> r == default
    {
      match this
      case Some(v) => v
      case None => default
    }
  }
}

=== FILE: storefronts.dfy ===
/**
 * The storefront record fetched from the admin API and the `find` lookups the
 * link workflow performs over the fetched list.
 */
module Storefronts {
  import opened Options

  /** One entry of `hydrogenStorefronts`: an opaque global id, a title and a production URL. */
  datatype Storefront = Storefront(id: string, title: string, productionUrl: string)

  /** The two callbacks the workflow hands to `find`: exact title match, or exact id match. */
  datatype Criterion = TitleEquals(title: string) | IdEquals(id: string)

  /** Strict (`===`) string equality on the chosen field: case-sensitive, no trimming. */
  predicate Matches(s: Storefront, c: Criterion) {
    match c
    case TitleEquals(t) => s.title == t
    case IdEquals(id) => s.id == id
  }

  /** Index `i` holds a match and no earlier index does. */
  ghost predicate IsFirstMatch(xs: seq<Storefront>, c: Criterion, i: int) {
    && 0 <= i < |xs|
    && Matches(xs[i], c)
    && forall j :: 0 <= j < i ==> !Matches(xs[j], c)
  }

  /** `findIndex`: scans left to right and stops at the first match. */
  function FindIndex(xs: seq<Storefront>, c: Criterion): (r: Option<nat>)
    ensures r.Some? ==> IsFirstMatch(xs, c, r.value)
    ensures r.None? <==> forall i :: 0 <= i < |xs| ==> !Matches(xs[i], c)
  {
    if |xs| == 0 then None
    else if Matches(xs[0], c) then Some(0)
    else
      match FindIndex(xs[1..], c)
      case None => None
      case Some(k) => Some(k + 1)
  }

  /** `find`: the first matching element, or nothing when no element matches. */
  function Find(xs: seq<Storefront>, c: Criterion): (r: Option<Storefront>)
    ensures r.None? <==> forall i :: 0 <= i < |xs| ==> !Matches(xs[i], c)
    ensures r.Some? ==> Matches(r.value, c) && exists i :: IsFirstMatch(xs, c, i) && xs[i] == r.value
  {
    match FindIndex(xs, c)
    case None => None
    case Some(i) => Some(xs[i])
  }

  /** There is at most one first match. */
  lemma FirstMatchUnique(xs: seq<Storefront>, c: Criterion, i: int, j: int)
    requires IsFirstMatch(xs, c, i) && IsFirstMatch(xs, c, j)
    ensures i == j
  {
  }

  /** `find` returns exactly the element at the first match, whatever that index is. */
  lemma FindReturnsFirstMatch(xs: seq<Storefront>, c: Criterion, i: int)
    requires IsFirstMatch(xs, c, i)
    ensures Find(xs, c) == Some(xs[i])
  {
    var r := Find(xs, c);
    assert r.Some?;
    var k :| IsFirstMatch(xs, c, k) && xs[k] == r.value;
    FirstMatchUnique(xs, c, i, k);
  }
}
